=== FILE: README.md ===
# Gemini tool endpoints: argument checks and prompt assembly

This project models the tool layer of the Gemini MCP server in Dafny. Five
tools are covered:

- `analyze-codebase` and `verify-implementation` take file or directory paths.
- `web-search` takes a query.
- `web-fetch` takes one URL or a list of URLs.
- `ask-gemini` takes a free prompt.

Each tool's `execute` does the same four things:

1. It checks its arguments and throws on the first bad one.
2. It normalises them. Paths are trimmed and put in `@` syntax. URLs must
   start with `http://` or `https://`, and there may be at most 20 of them.
3. It builds one prompt string.
4. It calls the Gemini command-line executor once and wraps the output.

`ask-gemini` also routes change-mode requests. A request that continues a
cached change-mode answer goes straight to the post-processor, and the
executor does not run.

Each handler is a pure function from an argument record to a `Plan`:

- `Reject(message)`: the handler throws before the executor runs.
- `Invoke(call, finish)`: the executor runs once with `call`.
- `FromCache(input)`: the post-processor answers on its own.

`Invocation.Respond` carries out a plan against an executor. The executor is
a function parameter, so it stays uninterpreted. The result is a `Reply`:

- the thrown message,
- the wrapped text `"Gemini response:" + separator + output`, or
- the arguments passed to `processChangeModeOutput`, whose behaviour is not
  modelled.

Modules:

- `Strings`: JavaScript `trim`, `startsWith` and `join`. `IsWs` is the
  ECMAScript WhiteSpace and LineTerminator set.
- `JsArgs`: loosely typed argument values and JavaScript truthiness.
- `Constants`: messages and the URL limit from `src/constants.ts` and the
  tool files.
- `Invocation`: plans, executor calls and replies.
- `CodebaseTools`, `WebTools`, `AskGemini`: one module per tool file.

Where the code and its descriptions disagree, the model follows the code:

- `!paths` and `!urls` reject a missing value and the empty string. They do
  not reject an empty array, because arrays are truthy in JavaScript. An
  empty `paths` array is accepted, and the prompt starts with a blank line.
  An empty `urls` array gives a "URL:" prompt that lists no URLs.
  `AnalyzeAcceptsEmptyArray` and `FetchAcceptsEmptyArray` state this.
- Paths are never validated, only trimmed and prefixed with `@`.
- The web-search query, the analysis question, the feature and the fetch
  instruction must not be blank, but the prompt uses each of them untrimmed.

## Model

| member | source | states |
|---|---|---|
| Strings.Trim | src/tools/codebase-tools.ts:37 | `trim()` cuts whitespace-only margins from both ends of its input. The result has no whitespace at either end, and it is empty exactly when the input is all whitespace. |
| Strings.TrimUnique | src/tools/codebase-tools.ts:37 | Any infix with no whitespace at its ends, left after cutting whitespace-only margins, equals `trim()` of the input. So the characterisation in `Trim`'s contract is complete. |
| Strings.TrimIdempotent | src/tools/codebase-tools.ts:37 | Trimming twice gives the same result as trimming once. |
| Strings.JoinElement | src/tools/codebase-tools.ts:42 | `join` places every element verbatim at its offset, which is the sum of the earlier elements' lengths plus one separator per earlier element. |
| Strings.JoinSeparator | src/tools/web-tools.ts:85 | Exactly the separator stands between each pair of neighbouring elements of `join`'s result. |
| Strings.OffsetStep | src/tools/codebase-tools.ts:42 | Each element starts one element and one separator after the previous one, so list order is kept. |
| Strings.JoinLength | src/tools/web-tools.ts:85 | Nothing follows the last element of `join`'s result. |
| JsArgs.RequiredText | src/tools/codebase-tools.ts:28-30 | The `!x \|\| typeof x !== 'string' \|\| !x.trim()` guard accepts exactly the strings that have a non-whitespace character. It passes on the text itself, untrimmed. |
| CodebaseTools.FormatPath | src/tools/codebase-tools.ts:36-39 | A formatted path starts with `@` and has no surrounding whitespace. It equals the trimmed input exactly when the trimmed input already starts with `@`. Otherwise it is the trimmed input with one `@` in front. |
| CodebaseTools.FormatPathIdempotent | src/tools/codebase-tools.ts:36-39 | Formatting an already formatted path leaves it unchanged. |
| CodebaseTools.FormatPathKeepsFormatted | src/tools/codebase-tools.ts:38 | A path that already starts with `@` and has no surrounding whitespace is kept unchanged. |
| CodebaseTools.FormatPaths | src/tools/codebase-tools.ts:36-39 | Formatting a list keeps the number and order of the paths, and formats each one. |
| CodebaseTools.FormatPathsIdempotent | src/tools/codebase-tools.ts:36-39 | Formatting a formatted list leaves it unchanged. |
| CodebaseTools.AnalyzePrompt | src/tools/codebase-tools.ts:42-49 | The analysis prompt starts with the paths list and a blank line, and it holds the question verbatim at a fixed position. |
| CodebaseTools.AnalyzeCodebase | src/tools/codebase-tools.ts:22-59 | A missing `paths` or an empty path string is rejected with "Paths are required" (an empty array is not) whatever the question is. Otherwise a missing, non-string or blank question is rejected with the no-prompt message. Any other request runs the executor once with the caller's model, no sandbox and no change mode. Its prompt starts with the `@` paths joined by spaces and a blank line, and holds the question verbatim. The output is wrapped after a blank line. |
| CodebaseTools.AnalyzeListsPathsInOrder | src/tools/codebase-tools.ts:33-49 | Every requested path appears in `@` form in the analysis prompt, at strictly increasing positions in request order. |
| CodebaseTools.AnalyzeSinglePath | src/tools/codebase-tools.ts:33 | A single path string is handled as a one-element list, so the prompt starts with that path formatted, then a blank line. |
| CodebaseTools.AnalyzeAcceptsEmptyArray | src/tools/codebase-tools.ts:24-26 | An empty `paths` array passes the `!paths` test, and the prompt then starts with the blank line. |
| CodebaseTools.AnalyzeReply | src/tools/codebase-tools.ts:51-59 | An accepted analysis request returns "Gemini response:", a blank line and the executor output. If the executor throws, its error is thrown unchanged. |
| CodebaseTools.DetailsSection | src/tools/codebase-tools.ts:101 | The details section is empty exactly when `details` is missing or empty. Otherwise it is the "Specific aspects to check: " label after a blank line, followed by the details. |
| CodebaseTools.InstructionsAreNotDetails | src/tools/codebase-tools.ts:106-108 | The checklist that follows the feature can never be mistaken for a details section. |
| CodebaseTools.VerifyTail | src/tools/codebase-tools.ts:101-108 | The text after the quoted feature starts with the details label exactly when `details` is non-empty, and the details then follow verbatim. |
| CodebaseTools.VerifyLayout | src/tools/codebase-tools.ts:103-106 | The verification prompt starts with the paths list and a blank line, and the feature sits in double quotes at a fixed position. Whatever follows the closing quote is found right after it. |
| CodebaseTools.VerifyPrompt | src/tools/codebase-tools.ts:100-119 | The verification prompt starts with the paths list and a blank line, and it holds the feature verbatim between double quotes. |
| CodebaseTools.VerifyPromptDetails | src/tools/codebase-tools.ts:101-106 | Right after the quoted feature, "Specific aspects to check: " follows if and only if `details` is non-empty, and the details then follow verbatim. |
| CodebaseTools.VerifyImplementation | src/tools/codebase-tools.ts:80-129 | A missing `paths` or an empty path string is rejected with "Paths are required" (an empty array is not). Otherwise a missing, non-string or blank feature is rejected with "Feature to verify is required". Any other request runs the executor once with the caller's model, no sandbox and no change mode. Its prompt starts with the paths and a blank line and quotes the feature verbatim. The output is wrapped after a blank line. |
| CodebaseTools.VerifyDetailsSection | src/tools/codebase-tools.ts:101-106 | In an accepted request, the "Specific aspects to check:" section follows the quoted feature if and only if `details` is non-empty. |
| CodebaseTools.VerifyReply | src/tools/codebase-tools.ts:121-129 | An accepted verification request returns "Gemini response:", a blank line and the executor output. If the executor throws, its error is thrown unchanged. |
| WebTools.SearchPrompt | src/tools/web-tools.ts:28-30 | The search prompt starts with "Search the web for: " followed by the query as given, untrimmed. |
| WebTools.WebSearch | src/tools/web-tools.ts:21-40 | A missing, non-string or blank query is rejected with the no-prompt message. Any other query runs the executor once with the caller's model, no sandbox and no change mode. The prompt starts with the request and the untrimmed query, and the output is wrapped after a blank line. |
| WebTools.SearchReply | src/tools/web-tools.ts:32-40 | An accepted search returns "Gemini response:", a blank line and the executor output. If the executor throws, its error is thrown unchanged. |
| WebTools.ValidUrlIsExact | src/tools/web-tools.ts:75 | The scheme test is exact: no URL that fails to begin with a lower-case `h` is accepted. So an upper-case scheme, leading whitespace, any other scheme and the empty string are all refused. |
| WebTools.FirstInvalid | src/tools/web-tools.ts:74-78 | The validation loop finds an invalid URL exactly when one exists. The one it reports lacks both accepted schemes, and every URL before it has one. |
| WebTools.PluralMarker | src/tools/web-tools.ts:86 | The fetch prompt says "URLs" rather than "URL" if and only if there is more than one URL. |
| WebTools.FetchLayout | src/tools/web-tools.ts:85-90 | In the fetch prompt, the URL list follows the opening, and the instruction follows the "Task: " label. |
| WebTools.FetchPrompt | src/tools/web-tools.ts:85-90 | The fetch prompt says "URLs" exactly when there is more than one URL. It holds the URLs joined by ", " in list order, and then the instruction verbatim. |
| WebTools.WebFetch | src/tools/web-tools.ts:59-100 | The checks run in a fixed order. First, missing `urls` gives "URLs are required". Second, a blank instruction gives "Instruction is required". Third, the first URL without `http://` or `https://` is named in the error. Fourth, more than 20 URLs gives "Maximum 20 URLs allowed per request". A request passes exactly when it clears all four checks. It then runs the executor once with the caller's model, no sandbox and no change mode, and the output is wrapped after a blank line. |
| WebTools.FetchNamesFirstInvalidUrl | src/tools/web-tools.ts:74-78 | The rejection names the first URL in list order that lacks an accepted scheme. |
| WebTools.FetchSchemeCheckedBeforeCount | src/tools/web-tools.ts:74-82 | A list of more than 20 URLs that holds an invalid URL is rejected with the message naming the first invalid URL, not with the limit message. |
| WebTools.FetchLimitIsTwenty | src/tools/web-tools.ts:80-82 | When every URL is valid, a request passes exactly when it has at most 20 URLs. Twenty pass, and twenty-one are rejected with "Maximum 20 URLs allowed per request". |
| WebTools.FetchSingleUrl | src/tools/web-tools.ts:71-90 | A single valid URL string is handled as a one-URL list. The request passes, the prompt says "URL" in the singular, and the URL follows it verbatim. |
| WebTools.FetchAcceptsEmptyArray | src/tools/web-tools.ts:62-64 | An empty `urls` array passes the `!urls` test, and the prompt says "URL" in the singular. |
| WebTools.FetchReply | src/tools/web-tools.ts:92-100 | An accepted fetch returns "Gemini response:", a blank line and the executor output. If the executor throws, its error is thrown unchanged. |
| Invocation.Respond | src/tools/ask-gemini.tool.ts:27-54 | A rejected plan throws its message. A cache plan returns the post-processor's answer. A run passes on the executor's exception if it throws. Otherwise the output is either handed to the post-processor with no cache key, or wrapped so that "Gemini response:" and the separator come first and the output follows unchanged. |
| Invocation.RespondConsultsOnlyItsCall | src/tools/ask-gemini.tool.ts:29-44 | The reply depends on the executor only through the plan's single call. A plan that does not run the executor gives the same reply under every executor. |
| AskGemini.AskGemini | src/tools/ask-gemini.tool.ts:26-55 | A missing or blank prompt is rejected with the no-prompt message before anything else. If change mode, the chunk index and the cache key are all truthy, the post-processor answers from its cache with an empty output. Otherwise the executor runs once with the prompt as given, the model unchanged, and `!!sandbox` and `!!changeMode`. In change mode its output goes to the post-processor with the caller's chunk index. Without change mode it is wrapped after a single newline. |
| AskGemini.ResumeSkipsExecutor | src/tools/ask-gemini.tool.ts:29-36 | A cache continuation returns the post-processor's answer for an empty output, the chunk index, the cache key and the prompt, whatever the executor would do. |
| AskGemini.FalsyChunkRunsExecutor | src/tools/ask-gemini.tool.ts:29-53 | In change mode, a chunk index of 0, "" or none, or a missing or empty cache key, does not resume. The executor runs in change mode. |
| AskGemini.ChangeModeReplyAfterRun | src/tools/ask-gemini.tool.ts:46-53 | After a change-mode run, the post-processor gets the output, the caller's chunk index, no cache key and the prompt. |
| AskGemini.PlainReply | src/tools/ask-gemini.tool.ts:54 | Without change mode the reply is "Gemini response:", a single newline and the output. |
| AskGemini.FlagsDefaultToFalse | src/tools/ask-gemini.tool.ts:12-13 | If `sandbox` and `changeMode` are omitted, the executor runs without sandbox and without change mode, and the reply is plain text. |
| AskGemini.StringFalseIsTruthy | src/tools/ask-gemini.tool.ts:38-44 | `!!` coerces by truthiness, so a `changeMode` given as the string "false" turns change mode on. |

## Left out

- `executeGeminiCLI` is not modelled. It spawns the process and handles the quota fallback, progress keepalive and output formats. The model passes it in as the function `exec`, which returns either an output text or a thrown message.
- `processChangeModeOutput` is not modelled. It parses edits and runs the chunk cache and paginator. The model represents its result as `ChangeModeReply` of the arguments it receives.
- The `onProgress` callback and `async`/`await` are not modelled. Thrown errors are modelled as messages.
- Zod schema parsing is not modelled: coercion, defaults, `.min(1)` and the `.describe` texts. Arguments arrive already shaped. The handlers' own guards are modelled in full, including the `typeof` test.
- `AskGemini.AskGemini`: the `prompt` is taken to be a string or missing. For any other value, `prompt?.trim()` throws a `TypeError`, which the schema already rules out.
- Numeric arguments are whole numbers. `NaN` and fractions, which are falsy or truthy in their own ways, do not occur.
- Tool names, descriptions and the registration in `src/tools/index.ts` have no logic and are not modelled.
- The constants in `src/constants.ts` that these tools do not use are not modelled, such as the quota messages, models, CLI flags and keepalive interval.
- The prompt templates are copied word for word. Proofs look only at the fixed opening, the separators and where each argument sits.

=== FILE: ask_gemini.dfy ===
/**
  The `ask-gemini` tool: a free prompt sent to the executor as it is, with
  two change-mode routes. A change-mode request that names both a chunk
  and a cache key is answered by the post-processor from its cache without
  running the executor; any other change-mode request runs the executor
  and passes the output to the post-processor.
 */
module AskGemini {
  import opened Wrappers
  import opened Strings
  import opened JsArgs
  import opened Constants
  import opened Invocation

  /** The arguments after schema parsing; `sandbox` and `changeMode` may still be omitted. */
  datatype AskArgs = AskArgs(
    prompt: Option<string>,
    model: Option<string>,
    sandbox: Value,
    changeMode: Value,
    chunkIndex: Value,
    chunkCacheKey: Option<string>)

  /** The separator between the response header and the executor output: one newline. */
  const PlainSeparator: string := "\n"

  /** `prompt?.trim()` is truthy: a prompt with a non-whitespace character. */
  predicate PromptGiven(prompt: Option<string>) {
    prompt.Some? && !Blank(prompt.value)
  }

  /** The request continues an earlier change-mode answer from the post-processor's cache. */
  predicate Resumes(args: AskArgs) {
    Truthy(args.changeMode) && Truthy(args.chunkIndex) && GivenString(args.chunkCacheKey)
  }

  /** `askGeminiTool.execute`. */
  function AskGemini(args: AskArgs): (r: Plan)
    ensures !PromptGiven(args.prompt) ==> r == Reject(NoPromptProvided)
    ensures r.Reject? <==> !PromptGiven(args.prompt)
    ensures r.FromCache? <==> PromptGiven(args.prompt) && Resumes(args)
    ensures r.FromCache? ==> r.input == PostInput("", args.chunkIndex, args.chunkCacheKey, args.prompt.value)
    ensures r.Invoke? <==> PromptGiven(args.prompt) && !Resumes(args)
    ensures r.Invoke? ==>
      r.call == Call(args.prompt.value, args.model, Truthy(args.sandbox), Truthy(args.changeMode))
    ensures r.Invoke? ==> (r.finish.PostProcess? <==> Truthy(args.changeMode))
    ensures r.Invoke? && Truthy(args.changeMode) ==> r.finish == PostProcess(args.chunkIndex, args.prompt.value)
    ensures r.Invoke? && !Truthy(args.changeMode) ==> r.finish == WrapText(PlainSeparator)
  {
    if args.prompt.None? || Trim(args.prompt.value) == "" then Reject(NoPromptProvided)
    else
      var prompt := args.prompt.value;
      if Truthy(args.changeMode) && Truthy(args.chunkIndex) && GivenString(args.chunkCacheKey) then
        FromCache(PostInput("", args.chunkIndex, args.chunkCacheKey, prompt))
      else
        var call := Call(prompt, args.model, Truthy(args.sandbox), Truthy(args.changeMode));
        if Truthy(args.changeMode) then Invoke(call, PostProcess(args.chunkIndex, prompt))
        else Invoke(call, WrapText(PlainSeparator))
  }

  /** A cache continuation is answered the same way whatever the executor would do. */
  lemma ResumeSkipsExecutor(args: AskArgs, exec1: Call -> ExecResult, exec2: Call -> ExecResult)
    requires PromptGiven(args.prompt) && Resumes(args)
    ensures Respond(AskGemini(args), exec1) == Respond(AskGemini(args), exec2)
    ensures Respond(AskGemini(args), exec1)
            == ChangeModeReply(PostInput("", args.chunkIndex, args.chunkCacheKey, args.prompt.value))
  {
    RespondConsultsOnlyItsCall(AskGemini(args), exec1, exec2);
  }

  /**
    In change mode, a falsy chunk index (0, "" or none) or a missing or empty
    cache key does not resume: the executor runs with change mode on.
   */
  lemma FalsyChunkRunsExecutor(args: AskArgs)
    requires PromptGiven(args.prompt) && Truthy(args.changeMode)
    requires args.chunkIndex in {Undefined, Num(0), Str("")} || !GivenString(args.chunkCacheKey)
    ensures AskGemini(args).Invoke?
    ensures AskGemini(args).call.changeMode
    ensures AskGemini(args).finish == PostProcess(args.chunkIndex, args.prompt.value)
  {
  }

  /** After a change-mode run the post-processor gets the output, the chunk index and no cache key. */
  lemma ChangeModeReplyAfterRun(args: AskArgs, exec: Call -> ExecResult)
    requires PromptGiven(args.prompt) && Truthy(args.changeMode) && !Resumes(args)
    ensures exec(AskGemini(args).call).Output? ==>
      Respond(AskGemini(args), exec)
      == ChangeModeReply(PostInput(exec(AskGemini(args).call).text, args.chunkIndex, None, args.prompt.value))
  {
  }

  /** Without change mode the reply is the header, a single newline and the output. */
  lemma PlainReply(args: AskArgs, exec: Call -> ExecResult)
    requires PromptGiven(args.prompt) && !Truthy(args.changeMode)
    ensures exec(AskGemini(args).call).Output? ==>
      Respond(AskGemini(args), exec) == Text(GeminiResponse + "\n" + exec(AskGemini(args).call).text)
  {
  }

  /** Omitted flags count as false: no sandbox, no change mode, a plain reply. */
  lemma FlagsDefaultToFalse(args: AskArgs)
    requires PromptGiven(args.prompt) && args.sandbox == Undefined && args.changeMode == Undefined
    ensures AskGemini(args).Invoke?
    ensures !AskGemini(args).call.sandbox && !AskGemini(args).call.changeMode
    ensures AskGemini(args).finish == WrapText(PlainSeparator)
  {
  }

  /** `!!` coerces by truthiness, so the string "false" switches change mode on. */
  lemma StringFalseIsTruthy(args: AskArgs)
    requires PromptGiven(args.prompt) && args.changeMode == Str("false") && !Resumes(args)
    ensures AskGemini(args).Invoke? && AskGemini(args).call.changeMode
  {
  }

}

=== FILE: codebase_tools.dfy ===
/**
  The `analyze-codebase` and `verify-implementation` tools: both take file
  or directory paths, put them in `@` syntax, and ask the executor one
  question about them.
 */
module CodebaseTools {
  import opened Wrappers
  import opened Strings
  import opened JsArgs
  import opened Constants
  import opened Invocation

  datatype AnalyzeArgs = AnalyzeArgs(paths: Option<StringOrList>, question: Value, model: Option<string>)

  datatype VerifyArgs = VerifyArgs(paths: Option<StringOrList>, feature: Value, details: Option<string>, model: Option<string>)

  const AnalyzeIntro: string := "Analyze the above codebase and answer the following:\n\n"
  const AnalyzeOutro: string :=
    "\n\nPlease provide a comprehensive analysis with specific file references, "
    + "code examples where relevant, and clear explanations."

  const VerifyIntro: string :=
    "TASK: Verify if the following feature/pattern is implemented in the codebase:\n"
  const DetailsLabel: string := "Specific aspects to check: "
  /** The checklist after the feature: its opening line and its items. */
  const VerifyInstructions: string := ChecklistOpening + ChecklistItems
  const ChecklistOpening: string := "Please provide:\n"
  const ChecklistItems: string :=
    "1. YES/NO answer with confidence level\n"
    + "2. If YES:\n"
    + "   - List all relevant files with exact paths\n"
    + "   - Show specific functions, classes, or components involved\n"
    + "   - Provide code snippets demonstrating the implementation\n"
    + "   - Explain how it's implemented\n"
    + "3. If NO or PARTIAL:\n"
    + "   - Explain what's missing\n"
    + "   - Suggest what would be needed for full implementation\n\n"
    + "Be specific and thorough. Include file paths and line numbers where possible."

  /** What introduces the details in the verification prompt. */
  const DetailsMarker: string := BlankLine + DetailsLabel

  /**
    One path in `@` syntax: the trimmed path, with an `@` put in front unless
    it already starts with one.
   */
  function FormatPath(p: string): (r: string)
    ensures StartsWith(r, "@")
    ensures Tight(r)
    ensures r == Trim(p) <==> StartsWith(Trim(p), "@")
    ensures r != Trim(p) ==> r[1..] == Trim(p)
  {
    var t := Trim(p);
    if StartsWith(t, "@") then t
    else
      AtTight(t);
      "@" + t
  }

  /** Putting `@` in front of a string with no whitespace at its ends. */
  lemma AtTight(t: string)
    requires Tight(t)
    ensures StartsWith("@" + t, "@") && Tight("@" + t)
    ensures ("@" + t)[1..] == t && "@" + t != t
  {
    assert ("@" + t)[0..1] == "@";
  }

  /** Formatting a formatted path changes nothing. */
  lemma FormatPathIdempotent(p: string)
    ensures FormatPath(FormatPath(p)) == FormatPath(p)
  {
    TrimTight(FormatPath(p));
  }

  /** A path already in `@` syntax with no surrounding whitespace is kept as it is. */
  lemma FormatPathKeepsFormatted(p: string)
    requires StartsWith(p, "@") && Tight(p)
    ensures FormatPath(p) == p
  {
    TrimTight(p);
  }

  /** `pathArray.map(...)`: every path formatted, count and order kept. */
  function FormatPaths(ps: seq<string>): (r: seq<string>)
    ensures |r| == |ps|
    ensures forall i :: 0 <= i < |ps| ==> r[i] == FormatPath(ps[i])
    decreases |ps|
  {
    if ps == [] then [] else [FormatPath(ps[0])] + FormatPaths(ps[1..])
  }

  /** Formatting a formatted list changes nothing. */
  lemma {:induction false} FormatPathsIdempotent(ps: seq<string>)
    ensures FormatPaths(FormatPaths(ps)) == FormatPaths(ps)
  {
    var once := FormatPaths(ps);
    forall i | 0 <= i < |ps|
      ensures FormatPaths(once)[i] == once[i]
    {
      FormatPathIdempotent(ps[i]);
    }
  }

  /** `formattedPaths.join(' ')` for a `paths` argument. */
  function PathsList(paths: StringOrList): string {
    Join(FormatPaths(AsList(paths)), " ")
  }

  /** Where the question starts in an analysis prompt whose paths list is `pathsList`. */
  function QuestionAt(pathsList: string): nat {
    |pathsList| + |BlankLine| + |AnalyzeIntro|
  }

  /** The analysis prompt: the paths, a blank line, the question verbatim. */
  function AnalyzePrompt(pathsList: string, question: string): (p: string)
    ensures StartsWith(p, pathsList + BlankLine)
    ensures OccursAt(p, question, QuestionAt(pathsList))
  {
    var head := pathsList + BlankLine + AnalyzeIntro;
    var p := head + question + AnalyzeOutro;
    ConcatOccurs(pathsList + BlankLine, AnalyzeIntro);
    ConcatOccurs(head, question);
    ConcatOccurs(head + question, AnalyzeOutro);
    OccursInPrefix(head + question, head, pathsList + BlankLine, 0);
    OccursInPrefix(p, head + question, pathsList + BlankLine, 0);
    OccursInPrefix(p, head + question, question, |head|);
    p
  }

  /** `codebaseAnalysisTool.execute`. */
  function AnalyzeCodebase(args: AnalyzeArgs): (r: Plan)
    ensures !Present(args.paths) ==> r == Reject(PathsRequired)
    ensures Present(args.paths) && !GivenText(args.question) ==> r == Reject(NoPromptProvided)
    ensures r.Invoke? <==> Present(args.paths) && GivenText(args.question)
    ensures r.Reject? <==> !r.Invoke?
    ensures r.Invoke? ==>
      && r.call.model == args.model
      && !r.call.sandbox && !r.call.changeMode
      && r.finish == WrapText(ResponseSeparator)
    ensures r.Invoke? ==> StartsWith(r.call.prompt, PathsList(args.paths.value) + BlankLine)
    ensures r.Invoke? ==> OccursAt(r.call.prompt, args.question.s, QuestionAt(PathsList(args.paths.value)))
  {
    if !Present(args.paths) then Reject(PathsRequired)
    else
      match RequiredText(args.question)
      case None => Reject(NoPromptProvided)
      case Some(question) =>
        Invoke(Call(AnalyzePrompt(PathsList(args.paths.value), question), args.model, false, false),
               WrapText(ResponseSeparator))
  }

  /**
    Every path of the request appears in the analysis prompt in `@` syntax, at
    strictly increasing positions in request order.
   */
  lemma AnalyzeListsPathsInOrder(args: AnalyzeArgs, i: nat)
    requires Present(args.paths) && GivenText(args.question)
    requires i < |AsList(args.paths.value)|
    ensures OccursAt(AnalyzeCodebase(args).call.prompt, FormatPath(AsList(args.paths.value)[i]),
                     Offset(FormatPaths(AsList(args.paths.value)), " ", i))
    ensures i + 1 < |AsList(args.paths.value)| ==>
      Offset(FormatPaths(AsList(args.paths.value)), " ", i) < Offset(FormatPaths(AsList(args.paths.value)), " ", i + 1)
  {
    var fs := FormatPaths(AsList(args.paths.value));
    var list := PathsList(args.paths.value);
    var prompt := AnalyzeCodebase(args).call.prompt;
    JoinElement(fs, " ", i);
    StartsWithShorter(prompt, list, BlankLine);
    OccursInPrefix(prompt, list, fs[i], Offset(fs, " ", i));
    if i + 1 < |fs| {
      OffsetStep(fs, " ", i);
    }
  }

  /** A single path string is treated as a one-element list. */
  lemma AnalyzeSinglePath(args: AnalyzeArgs, path: string)
    requires args.paths == Some(Single(path)) && path != "" && GivenText(args.question)
    ensures AnalyzeCodebase(args).Invoke?
    ensures StartsWith(AnalyzeCodebase(args).call.prompt, FormatPath(path) + BlankLine)
  {
    assert FormatPaths([path]) == [FormatPath(path)];
  }

  /**
    `!paths` lets an empty array through: the request is accepted and the
    prompt starts with the blank line where the paths would be.
   */
  lemma AnalyzeAcceptsEmptyArray(args: AnalyzeArgs)
    requires args.paths == Some(List([])) && GivenText(args.question)
    ensures AnalyzeCodebase(args).Invoke?
    ensures StartsWith(AnalyzeCodebase(args).call.prompt, BlankLine)
  {
    assert PathsList(List([])) == "";
  }

  /** An accepted analysis request replies with the header, a blank line and the output. */
  lemma AnalyzeReply(args: AnalyzeArgs, exec: Call -> ExecResult)
    requires Present(args.paths) && GivenText(args.question)
    ensures exec(AnalyzeCodebase(args).call).Output? ==>
      Respond(AnalyzeCodebase(args), exec) == Text(GeminiResponse + "\n\n" + exec(AnalyzeCodebase(args).call).text)
    ensures exec(AnalyzeCodebase(args).call).Threw? ==> Respond(AnalyzeCodebase(args), exec) == Thrown(exec(AnalyzeCodebase(args).call).error)
  {
  }

  /** `detailsSection`: empty unless the details are a non-empty string. */
  function DetailsSection(details: Option<string>): (r: string)
    ensures r == "" <==> !GivenString(details)
    ensures GivenString(details) ==> r == DetailsMarker + details.value
  {
    if GivenString(details) then DetailsMarker + details.value else ""
  }

  /** The instructions after the feature never begin like a details section. */
  lemma InstructionsAreNotDetails()
    ensures !StartsWith(BlankLine + VerifyInstructions, DetailsMarker)
  {
    ConcatOccurs(ChecklistOpening, ChecklistItems);
    assert VerifyInstructions[0] == VerifyInstructions[0..|ChecklistOpening|][0] == 'P';
    assert (BlankLine + VerifyInstructions)[2] == VerifyInstructions[0];
    assert DetailsMarker[2] == DetailsLabel[0] == 'S';
  }

  /** Where the quoted feature starts in a verification prompt. */
  function QuoteAt(pathsList: string): nat {
    |pathsList| + |BlankLine| + |VerifyIntro|
  }

  /** Where the text after the closing quote of the feature starts. */
  function SectionAt(pathsList: string, feature: string): nat {
    QuoteAt(pathsList) + |"\"" + feature + "\""|
  }

  /** What follows the closing quote of the feature: the details section, then the checklist. */
  function VerifyTail(details: Option<string>): (t: string)
    ensures OccursAt(t, DetailsMarker, 0) <==> GivenString(details)
    ensures GivenString(details) ==> OccursAt(t, details.value, |DetailsMarker|)
  {
    var section := DetailsSection(details);
    var t := section + (BlankLine + VerifyInstructions);
    ConcatOccurs(section, BlankLine + VerifyInstructions);
    assert GivenString(details) ==> OccursAt(t, DetailsMarker, 0) && OccursAt(t, details.value, |DetailsMarker|) by {
      if GivenString(details) {
        ConcatOccurs(DetailsMarker, details.value);
        OccursInPrefix(t, section, DetailsMarker, 0);
        OccursInPrefix(t, section, details.value, |DetailsMarker|);
      }
    }
    assert !GivenString(details) ==> !OccursAt(t, DetailsMarker, 0) by {
      if !GivenString(details) {
        InstructionsAreNotDetails();
      }
    }
    t
  }

  /** The verification prompt around a given text `tail` after the quoted feature. */
  function VerifyText(pathsList: string, feature: string, tail: string): string {
    pathsList + BlankLine + VerifyIntro + ("\"" + feature + "\"") + tail
  }

  /** Where each part of a verification prompt sits. */
  lemma VerifyLayout(pathsList: string, feature: string, tail: string, x: string, o: nat)
    ensures StartsWith(VerifyText(pathsList, feature, tail), pathsList + BlankLine)
    ensures OccursAt(VerifyText(pathsList, feature, tail), "\"" + feature + "\"", QuoteAt(pathsList))
    ensures OccursAt(VerifyText(pathsList, feature, tail), x, SectionAt(pathsList, feature) + o) <==> OccursAt(tail, x, o)
  {
    var pre := pathsList + BlankLine;
    var quoted := "\"" + feature + "\"";
    var head := pre + VerifyIntro + quoted;
    ConcatOccurs(pre, VerifyIntro);
    ConcatOccurs(pre + VerifyIntro, quoted);
    OccursInPrefix(head, pre + VerifyIntro, pre, 0);
    ConcatOccurs(head, tail);
    OccursInPrefix(head + tail, head, pre, 0);
    OccursInPrefix(head + tail, head, quoted, |pre + VerifyIntro|);
    OccursShift(head, tail, x, o);
  }

  /** The verification prompt: the paths, a blank line, the feature in quotes, the optional details. */
  function VerifyPrompt(pathsList: string, feature: string, details: Option<string>): (p: string)
    ensures StartsWith(p, pathsList + BlankLine)
    ensures OccursAt(p, "\"" + feature + "\"", QuoteAt(pathsList))
  {
    VerifyLayout(pathsList, feature, VerifyTail(details), "", 0);
    VerifyText(pathsList, feature, VerifyTail(details))
  }

  /**
    Right after the quoted feature, the prompt goes on with "Specific aspects
    to check: " exactly when the details are a non-empty string, and the
    details then follow verbatim.
   */
  lemma VerifyPromptDetails(pathsList: string, feature: string, details: Option<string>)
    ensures OccursAt(VerifyPrompt(pathsList, feature, details), DetailsMarker, SectionAt(pathsList, feature))
            <==> GivenString(details)
    ensures GivenString(details) ==>
      OccursAt(VerifyPrompt(pathsList, feature, details), details.value, SectionAt(pathsList, feature) + |DetailsMarker|)
  {
    VerifyPromptIsText(pathsList, feature, details);
    VerifyLayout(pathsList, feature, VerifyTail(details), DetailsMarker, 0);
    if GivenString(details) {
      DetailsFollowMarker(pathsList, feature, details.value);
    }
  }

  /** With details given, they follow the marker right after the quoted feature. */
  lemma DetailsFollowMarker(pathsList: string, feature: string, details: string)
    requires details != ""
    ensures OccursAt(VerifyPrompt(pathsList, feature, Some(details)), details,
                     SectionAt(pathsList, feature) + |DetailsMarker|)
  {
    VerifyPromptIsText(pathsList, feature, Some(details));
    VerifyLayout(pathsList, feature, VerifyTail(Some(details)), details, |DetailsMarker|);
  }

  /** The verification prompt is its fixed head followed by the tail for the details. */
  lemma VerifyPromptIsText(pathsList: string, feature: string, details: Option<string>)
    ensures VerifyPrompt(pathsList, feature, details) == VerifyText(pathsList, feature, VerifyTail(details))
  {
  }

  /** `implementationVerificationTool.execute`. */
  function VerifyImplementation(args: VerifyArgs): (r: Plan)
    ensures !Present(args.paths) ==> r == Reject(PathsRequired)
    ensures Present(args.paths) && !GivenText(args.feature) ==> r == Reject(FeatureRequired)
    ensures r.Invoke? <==> Present(args.paths) && GivenText(args.feature)
    ensures r.Reject? <==> !r.Invoke?
    ensures r.Invoke? ==>
      && r.call.model == args.model
      && !r.call.sandbox && !r.call.changeMode
      && r.finish == WrapText(ResponseSeparator)
    ensures r.Invoke? ==> StartsWith(r.call.prompt, PathsList(args.paths.value) + BlankLine)
    ensures r.Invoke? ==>
      OccursAt(r.call.prompt, "\"" + args.feature.s + "\"", QuoteAt(PathsList(args.paths.value)))
  {
    if !Present(args.paths) then Reject(PathsRequired)
    else
      match RequiredText(args.feature)
      case None => Reject(FeatureRequired)
      case Some(feature) =>
        Invoke(Call(VerifyPrompt(PathsList(args.paths.value), feature, args.details), args.model, false, false),
               WrapText(ResponseSeparator))
  }

  /** The details section of an accepted request appears if and only if `details` is non-empty. */
  lemma VerifyDetailsSection(args: VerifyArgs)
    requires Present(args.paths) && GivenText(args.feature)
    ensures OccursAt(VerifyImplementation(args).call.prompt, DetailsMarker,
                     SectionAt(PathsList(args.paths.value), args.feature.s))
            <==> GivenString(args.details)
  {
    VerifyPromptDetails(PathsList(args.paths.value), args.feature.s, args.details);
  }

  /** An accepted verification request replies with the header, a blank line and the output. */
  lemma VerifyReply(args: VerifyArgs, exec: Call -> ExecResult)
    requires Present(args.paths) && GivenText(args.feature)
    ensures exec(VerifyImplementation(args).call).Output? ==>
      Respond(VerifyImplementation(args), exec) == Text(GeminiResponse + "\n\n" + exec(VerifyImplementation(args).call).text)
    ensures exec(VerifyImplementation(args).call).Threw? ==> Respond(VerifyImplementation(args), exec) == Thrown(exec(VerifyImplementation(args).call).error)
  {
  }

}

=== FILE: constants.dfy ===
/** The literal messages and limits the tool endpoints use. */
module Constants {

  /** Header put before every plain response. */
  const GeminiResponse: string := "Gemini response:"

  /** A blank line: the separator after the header, and between prompt sections. */
  const BlankLine: string := "\n\n"

  /** What separates the header from the executor output in the three tools that take files or the web. */
  const ResponseSeparator: string := BlankLine

  /*
    Long message and prompt texts below are written as short `+` pieces: the
    verifier reasons about a sum of short literals far more cheaply than about
    one long literal. The pieces join to the message and prompt texts
    of the tool files exactly.
   */

  /** Thrown when the free-text argument of a tool is missing or blank. */
  const NoPromptProvided: string :=
    "Please provide a prompt for analysis. "
    + "Use @ syntax to include files (e.g., '@largefile.js explain what this does') "
    + "or ask general questions"

  const PathsRequired: string := "Paths are required"
  const FeatureRequired: string := "Feature to verify is required"
  const UrlsRequired: string := "URLs are required"
  const InstructionRequired: string := "Instruction is required"
  const TooManyUrls: string := "Maximum 20 URLs allowed per request"

  /** The most URLs one web-fetch request may carry. */
  const MaxUrls: nat := 20

  /** The message naming a URL that lacks an accepted scheme. */
  function InvalidUrlMessage(url: string): string {
    "Invalid URL: " + url + ". URLs must start with http:// or https://"
  }

}

=== FILE: invocation.dfy ===
/**
  What a tool handler decides, and how that decision is completed once the
  Gemini command-line executor has answered. The executor
  (`executeGeminiCLI`) and the change-mode post-processor
  (`processChangeModeOutput`) are not part of this model: the executor is a
  function parameter, and the post-processor's result is represented by the
  arguments it is applied to.
 */
module Invocation {
  import opened Wrappers
  import opened Strings
  import opened JsArgs
  import opened Constants

  /** One call of the executor: prompt, model, sandbox flag, change-mode flag. */
  datatype Call = Call(prompt: string, model: Option<string>, sandbox: bool, changeMode: bool)

  /** The arguments of one `processChangeModeOutput(output, chunkIndex, cacheKey, prompt)` call. */
  datatype PostInput = PostInput(output: string, chunkIndex: Value, cacheKey: Option<string>, prompt: string)

  /** What happens to the executor's output. */
  datatype Finish =
    | WrapText(separator: string)                 // header, separator, output
    | PostProcess(chunkIndex: Value, prompt: string)  // hand it to the change-mode post-processor

  /** A handler's decision, taken before the executor runs. */
  datatype Plan =
    | Reject(message: string)              // throw; the executor is not run
    | Invoke(call: Call, finish: Finish)   // run the executor once, then finish
    | FromCache(input: PostInput)          // answer from the post-processor alone

  /** The executor either yields its output text or throws. */
  datatype ExecResult = Output(text: string) | Threw(error: string)

  /** What the handler's promise settles to. */
  datatype Reply =
    | Thrown(message: string)
    | Text(text: string)
    | ChangeModeReply(input: PostInput)    // whatever the post-processor returns for these arguments

  /** Carries out a plan against an executor. */
  function Respond(plan: Plan, exec: Call -> ExecResult): (r: Reply)
    ensures plan.Reject? ==> r == Thrown(plan.message)
    ensures plan.FromCache? ==> r == ChangeModeReply(plan.input)
    ensures plan.Invoke? && exec(plan.call).Threw? ==> r == Thrown(exec(plan.call).error)
    ensures plan.Invoke? && exec(plan.call).Output? && plan.finish.WrapText? ==>
      && r.Text?
      && StartsWith(r.text, GeminiResponse + plan.finish.separator)
      && r.text[|GeminiResponse| + |plan.finish.separator|..] == exec(plan.call).text
    ensures plan.Invoke? && exec(plan.call).Output? && plan.finish.PostProcess? ==>
      r == ChangeModeReply(PostInput(exec(plan.call).text, plan.finish.chunkIndex, None, plan.finish.prompt))
  {
    match plan
    case Reject(m) => Thrown(m)
    case FromCache(input) => ChangeModeReply(input)
    case Invoke(call, finish) =>
      match exec(call)
      case Threw(e) => Thrown(e)
      case Output(out) =>
        match finish
        case WrapText(sep) =>
          var text := GeminiResponse + sep + out;
          assert text[..|GeminiResponse + sep|] == GeminiResponse + sep;
          Text(text)
        case PostProcess(chunkIndex, prompt) =>
          ChangeModeReply(PostInput(out, chunkIndex, None, prompt))
  }

  /**
    The executor is consulted on the plan's one call and nothing else: two
    executors that agree on that call give the same reply, and a plan that
    does not invoke gives the same reply under every executor.
   */
  lemma RespondConsultsOnlyItsCall(plan: Plan, exec1: Call -> ExecResult, exec2: Call -> ExecResult)
    requires plan.Invoke? ==> exec1(plan.call) == exec2(plan.call)
    ensures Respond(plan, exec1) == Respond(plan, exec2)
  {
  }

}

=== FILE: js_args.dfy ===
/**
  Tool arguments as they reach a handler: loosely typed JavaScript values,
  and the truthiness tests the handlers apply to them.
 */
module JsArgs {
  import opened Wrappers
  import opened Strings

  /**
    A JavaScript scalar. Numbers are taken as integers; NaN and fractions
    do not occur in the arguments modelled here.
   */
  datatype Value = Undefined | Bool(b: bool) | Num(n: int) | Str(s: string)

  /** JavaScript truthiness, the meaning of `!!v` and of `if (v)`. */
  predicate Truthy(v: Value) {
    match v
    case Undefined => false
    case Bool(b) => b
    case Num(n) => n != 0
    case Str(s) => s != ""
  }

  /** A `paths` or `urls` argument: one string or an array of strings. */
  datatype StringOrList = Single(item: string) | List(items: seq<string>)

  /**
    `!!paths` for an optional string-or-array: a missing value and the empty
    string are falsy, while every array, even an empty one, is truthy.
   */
  predicate Present(v: Option<StringOrList>) {
    match v
    case None => false
    case Some(Single(x)) => x != ""
    case Some(List(_)) => true
  }

  /** `Array.isArray(v) ? v : [v]`. */
  function AsList(v: StringOrList): seq<string> {
    match v
    case Single(x) => [x]
    case List(xs) => xs
  }

  /** A truthy optional string, as in `details ? … : ''`. */
  predicate GivenString(v: Option<string>) {
    v.Some? && v.value != ""
  }

  /**
    A text argument that passes `!v || typeof v !== 'string' || !v.trim()`
    unrejected: a string with at least one non-whitespace character.
   */
  predicate GivenText(v: Value) {
    v.Str? && !Blank(v.s)
  }

  /**
    The guard of the text arguments: the text itself, untrimmed, when the
    handler accepts it, and `None` when the handler throws.
   */
  function RequiredText(v: Value): (r: Option<string>)
    ensures r.Some? <==> GivenText(v)
    ensures r.Some? ==> v == Str(r.value)
  {
    match v
    case Str(s) => if Trim(s) == "" then None else Some(s)
    case _ => None
  }

}

=== FILE: strings.dfy ===
/**
  The string operations of JavaScript that the tool endpoints rely on:
  `String.prototype.trim`, `startsWith` and `Array.prototype.join`.
  Strings are sequences of characters; no normalisation is involved.
 */
module Strings {

  /** The characters `trim()` strips: ECMAScript WhiteSpace and LineTerminator. */
  predicate IsWs(c: char) {
    || c == '\t' || c == '\n' || c == '\U{000B}' || c == '\U{000C}' || c == '\r'
    || c == ' ' || c == '\U{00A0}' || c == '\U{1680}'
    || ('\U{2000}' <= c <= '\U{200A}')
    || c == '\U{2028}' || c == '\U{2029}' || c == '\U{202F}' || c == '\U{205F}'
    || c == '\U{3000}' || c == '\U{FEFF}'
  }

  /** Every character of `s` is whitespace (vacuously true of ""). */
  predicate Blank(s: string) {
    forall i :: 0 <= i < |s| ==> IsWs(s[i])
  }

  /** `s` has no whitespace at either end. */
  predicate Tight(s: string) {
    s == [] || (!IsWs(s[0]) && !IsWs(s[|s| - 1]))
  }

  /** `r` is `s` with the whitespace-only prefix `s[..i]` and a whitespace-only suffix cut away. */
  predicate PaddedAt(s: string, r: string, i: int) {
    0 <= i <= |s| - |r| && s[i..i + |r|] == r && Blank(s[..i]) && Blank(s[i + |r|..])
  }

  /** `r` is `s` with some whitespace-only prefix and suffix cut away. */
  ghost predicate Padded(s: string, r: string) {
    exists i :: PaddedAt(s, r, i)
  }

  /** `trimStart()`: drops the leading whitespace. */
  function TrimStart(s: string): (r: string)
    ensures |r| <= |s| && r == s[|s| - |r|..]
    ensures Blank(s[..|s| - |r|])
    ensures r == [] || !IsWs(r[0])
    decreases |s|
  {
    if |s| > 0 && IsWs(s[0]) then TrimStart(s[1..]) else s
  }

  /** `trimEnd()`: drops the trailing whitespace. */
  function TrimEnd(s: string): (r: string)
    ensures |r| <= |s| && r == s[..|r|]
    ensures Blank(s[|r|..])
    ensures r == [] || !IsWs(r[|r| - 1])
    decreases |s|
  {
    if |s| > 0 && IsWs(s[|s| - 1]) then TrimEnd(s[..|s| - 1]) else s
  }

  /** `trim()`: the longest infix of `s` with whitespace at neither end. */
  function Trim(s: string): (r: string)
    ensures Padded(s, r)
    ensures Tight(r)
    ensures r == [] <==> Blank(s)
  {
    var t := TrimStart(s);
    var r := TrimEnd(t);
    var i := |s| - |t|;
    assert s[i..i + |r|] == r;
    assert s[i + |r|..] == t[|r|..];
    assert PaddedAt(s, r, i);
    BlankSplit(s, i);
    r
  }

  /** A string is blank exactly when both parts of any split of it are. */
  lemma BlankSplit(s: string, i: int)
    requires 0 <= i <= |s|
    ensures Blank(s) <==> Blank(s[..i]) && Blank(s[i..])
  {
    assert s == s[..i] + s[i..];
  }

  /** Only one position can be the first non-whitespace character. */
  lemma FirstTightUnique(s: string, i: int, j: int)
    requires 0 <= i < |s| && 0 <= j < |s|
    requires Blank(s[..i]) && Blank(s[..j]) && !IsWs(s[i]) && !IsWs(s[j])
    ensures i == j
  {
  }

  /** Only one position can follow the last non-whitespace character. */
  lemma LastTightUnique(s: string, e: int, f: int)
    requires 0 < e <= |s| && 0 < f <= |s|
    requires Blank(s[e..]) && Blank(s[f..]) && !IsWs(s[e - 1]) && !IsWs(s[f - 1])
    ensures e == f
  {
  }

  /** Two tight infixes cut out of whitespace margins of one string coincide. */
  lemma TightInfixUnique(s: string, r: string, i: int, t: string, j: int)
    requires PaddedAt(s, r, i) && Tight(r)
    requires PaddedAt(s, t, j) && Tight(t)
    ensures r == t
  {
    if r == [] || t == [] {
      BlankSplit(s, i);
      BlankSplit(s, j);
      assert s[i..] == s[i + |r|..] || r != [];
      assert s[j..] == s[j + |t|..] || t != [];
    } else {
      assert s[i] == r[0];
      assert s[j] == t[0];
      FirstTightUnique(s, i, j);
      assert s[i + |r| - 1] == r[|r| - 1];
      assert s[j + |t| - 1] == t[|t| - 1];
      LastTightUnique(s, i + |r|, j + |t|);
    }
  }

  /** Cutting a tight infix out of a whitespace margin can only be done one way: `trim()`. */
  lemma TrimUnique(s: string, r: string)
    requires Padded(s, r) && Tight(r)
    ensures r == Trim(s)
  {
    var i :| PaddedAt(s, r, i);
    var t := Trim(s);
    var j :| PaddedAt(s, t, j);
    TightInfixUnique(s, r, i, t, j);
  }

  /** Trimming a string with no whitespace at its ends leaves it unchanged. */
  lemma TrimTight(s: string)
    requires Tight(s)
    ensures Trim(s) == s
  {
    assert s[0..0 + |s|] == s;
    assert PaddedAt(s, s, 0);
    TrimUnique(s, s);
  }

  /** Trimming is idempotent. */
  lemma TrimIdempotent(s: string)
    ensures Trim(Trim(s)) == Trim(s)
  {
    TrimTight(Trim(s));
  }

  /** `part` sits in `s` starting at position `at`. */
  predicate OccursAt(s: string, part: string, at: int) {
    0 <= at && at + |part| <= |s| && s[at..at + |part|] == part
  }

  /** JavaScript `s.startsWith(p)`: exact, case-sensitive prefix match. */
  predicate StartsWith(s: string, p: string) {
    OccursAt(s, p, 0)
  }

  /** Both parts of a concatenation occur in it, one after the other. */
  lemma ConcatOccurs(a: string, b: string)
    ensures StartsWith(a + b, a)
    ensures OccursAt(a + b, b, |a|)
  {
    assert (a + b)[0..|a|] == a;
    assert (a + b)[|a|..|a| + |b|] == b;
  }

  /** A string starting with `a + b` starts with `a`. */
  lemma StartsWithShorter(s: string, a: string, b: string)
    requires StartsWith(s, a + b)
    ensures StartsWith(s, a)
  {
    assert s[0..|a|] == s[0..|a + b|][0..|a|];
  }

  /** JavaScript `xs.join(sep)`. */
  function Join(xs: seq<string>, sep: string): string
    decreases |xs|
  {
    if |xs| == 0 then ""
    else if |xs| == 1 then xs[0]
    else xs[0] + sep + Join(xs[1..], sep)
  }

  /** Where element `i` of `xs` begins in `Join(xs, sep)`. */
  function Offset(xs: seq<string>, sep: string, i: nat): nat
    requires i <= |xs|
    decreases i
  {
    if i == 0 then 0 else |xs[0]| + |sep| + Offset(xs[1..], sep, i - 1)
  }

  /** Occurrences inside `b` are exactly the occurrences inside `a + b` past `a`, shifted by `|a|`. */
  lemma OccursShift(a: string, b: string, x: string, o: int)
    requires 0 <= o
    ensures OccursAt(a + b, x, |a| + o) <==> OccursAt(b, x, o)
  {
    if |a| + o + |x| <= |a + b| {
      assert (a + b)[|a| + o..|a| + o + |x|] == b[o..o + |x|];
    }
  }

  /** An occurrence inside a prefix of `s` is one inside `s`. */
  lemma OccursInPrefix(s: string, prefix: string, x: string, o: int)
    requires StartsWith(s, prefix) && OccursAt(prefix, x, o)
    ensures OccursAt(s, x, o)
  {
    assert s[o..o + |x|] == s[0..|prefix|][o..o + |x|];
  }

  /** Within the span of a prefix, occurrences in `s` and in the prefix agree. */
  lemma PrefixOccurs(s: string, prefix: string, x: string, o: int)
    requires StartsWith(s, prefix) && 0 <= o && o + |x| <= |prefix|
    ensures OccursAt(s, x, o) <==> OccursAt(prefix, x, o)
  {
    forall k | o <= k < o + |x|
      ensures s[k] == prefix[k]
    {
      assert s[0..|prefix|][k] == s[k];
    }
    assert s[o..o + |x|] == prefix[o..o + |x|];
  }

  /** Each element of `xs` appears verbatim in `Join(xs, sep)` at its offset. */
  lemma {:induction false} JoinElement(xs: seq<string>, sep: string, i: nat)
    requires i < |xs|
    ensures OccursAt(Join(xs, sep), xs[i], Offset(xs, sep, i))
    decreases i
  {
    if |xs| > 1 {
      var rest := Join(xs[1..], sep);
      assert Join(xs, sep) == (xs[0] + sep) + rest;
      if i == 0 {
        assert Join(xs, sep)[..|xs[0]|] == xs[0];
      } else {
        JoinElement(xs[1..], sep, i - 1);
        assert xs[1..][i - 1] == xs[i];
        OccursShift(xs[0] + sep, rest, xs[i], Offset(xs[1..], sep, i - 1));
      }
    }
  }

  /** Neighbouring elements are separated by exactly `sep`. */
  lemma {:induction false} JoinSeparator(xs: seq<string>, sep: string, i: nat)
    requires i + 1 < |xs|
    ensures OccursAt(Join(xs, sep), sep, Offset(xs, sep, i) + |xs[i]|)
    decreases i
  {
    var rest := Join(xs[1..], sep);
    assert Join(xs, sep) == (xs[0] + sep) + rest;
    if i == 0 {
      assert Join(xs, sep)[|xs[0]|..|xs[0]| + |sep|] == sep;
    } else {
      JoinSeparator(xs[1..], sep, i - 1);
      assert xs[1..][i - 1] == xs[i];
      OccursShift(xs[0] + sep, rest, sep, Offset(xs[1..], sep, i - 1) + |xs[i]|);
    }
  }

  /** Each offset lies one element and one separator past the previous one. */
  lemma {:induction false} OffsetStep(xs: seq<string>, sep: string, i: nat)
    requires i + 1 < |xs|
    ensures Offset(xs, sep, i + 1) == Offset(xs, sep, i) + |xs[i]| + |sep|
    decreases i
  {
    if i > 0 {
      OffsetStep(xs[1..], sep, i - 1);
      assert xs[1..][i - 1] == xs[i];
    }
  }

  /** Nothing follows the last element. */
  lemma {:induction false} JoinLength(xs: seq<string>, sep: string)
    requires |xs| > 0
    ensures |Join(xs, sep)| == Offset(xs, sep, |xs| - 1) + |xs[|xs| - 1]|
    decreases |xs|
  {
    if |xs| > 1 {
      JoinLength(xs[1..], sep);
      assert xs[1..][|xs| - 2] == xs[|xs| - 1];
    }
  }

}

=== FILE: web_tools.dfy ===
/**
  The `web-search` and `web-fetch` tools: a query or a list of URLs plus an
  instruction, validated and turned into one prompt for the executor.
 */
module WebTools {
  import opened Wrappers
  import opened Strings
  import opened JsArgs
  import opened Constants
  import opened Invocation

  datatype SearchArgs = SearchArgs(query: Value, model: Option<string>)

  datatype FetchArgs = FetchArgs(urls: Option<StringOrList>, instruction: Value, model: Option<string>)

  const SearchPrefix: string := "Search the web for: "
  const SearchOutro: string :=
    "\n\nPlease use the google_web_search tool to find the most current and relevant information. "
    + "Provide a comprehensive summary with citations."

  const FetchIntro: string := "Please use the web_fetch tool to fetch and analyze the following URL"
  const TaskLabel: string := "\n\nTask: "
  const FetchOutro: string := "\n\nProvide detailed, relevant information based on the fetched content."

  /** The search prompt: the query exactly as given, after a fixed request. */
  function SearchPrompt(query: string): (p: string)
    ensures StartsWith(p, SearchPrefix + query)
  {
    ConcatOccurs(SearchPrefix + query, SearchOutro);
    SearchPrefix + query + SearchOutro
  }

  /** `webSearchTool.execute`. */
  function WebSearch(args: SearchArgs): (r: Plan)
    ensures !GivenText(args.query) ==> r == Reject(NoPromptProvided)
    ensures r.Invoke? <==> GivenText(args.query)
    ensures r.Reject? <==> !r.Invoke?
    ensures r.Invoke? ==>
      && r.call.model == args.model
      && !r.call.sandbox && !r.call.changeMode
      && r.finish == WrapText(ResponseSeparator)
    ensures r.Invoke? ==> StartsWith(r.call.prompt, SearchPrefix + args.query.s)
  {
    match RequiredText(args.query)
    case None => Reject(NoPromptProvided)
    case Some(query) => Invoke(Call(SearchPrompt(query), args.model, false, false), WrapText(ResponseSeparator))
  }

  /** An accepted search replies with the header, a blank line and the output. */
  lemma SearchReply(args: SearchArgs, exec: Call -> ExecResult)
    requires GivenText(args.query)
    ensures exec(WebSearch(args).call).Output? ==>
      Respond(WebSearch(args), exec) == Text(GeminiResponse + "\n\n" + exec(WebSearch(args).call).text)
    ensures exec(WebSearch(args).call).Threw? ==> Respond(WebSearch(args), exec) == Thrown(exec(WebSearch(args).call).error)
  {
  }

  /** A URL the fetch tool accepts: it starts with `http://` or `https://`, case-sensitively. */
  predicate ValidUrl(url: string) {
    StartsWith(url, "http://") || StartsWith(url, "https://")
  }

  /**
    The scheme test neither trims nor folds case: a URL that does not begin
    with a lower-case `h` (an upper-case scheme, leading whitespace, any other
    scheme, the empty string) is refused.
   */
  lemma ValidUrlIsExact(url: string)
    requires |url| == 0 || url[0] != 'h'
    ensures !ValidUrl(url)
  {
    if |url| >= 7 {
      assert url[0..7][0] == url[0];
    }
    if |url| >= 8 {
      assert url[0..8][0] == url[0];
    }
  }

  /** The position of the first URL that fails `ValidUrl`, as the validation loop finds it. */
  function FirstInvalid(urls: seq<string>): (r: Option<nat>)
    ensures r.None? <==> forall k :: 0 <= k < |urls| ==> ValidUrl(urls[k])
    ensures r.Some? ==> r.value < |urls| && !ValidUrl(urls[r.value])
    ensures r.Some? ==> forall k :: 0 <= k < r.value ==> ValidUrl(urls[k])
    decreases |urls|
  {
    if |urls| == 0 then None
    else if !ValidUrl(urls[0]) then Some(0)
    else
      match FirstInvalid(urls[1..])
      case None => None
      case Some(k) => Some(k + 1)
  }

  /** "URL" becomes "URLs" for more than one URL. */
  function Plural(count: nat): string {
    if count > 1 then "s" else ""
  }

  /** Where the joined URL list starts in a fetch prompt for `count` URLs. */
  function UrlListAt(count: nat): nat {
    |FetchIntro| + |Plural(count)| + |": "|
  }

  /** The fetch prompt: the URLs joined by ", ", then the instruction verbatim. */
  function FetchPrompt(urls: seq<string>, instruction: string): (p: string)
    ensures StartsWith(p, FetchIntro)
    ensures OccursAt(p, "s", |FetchIntro|) <==> |urls| > 1
    ensures OccursAt(p, Join(urls, ", "), UrlListAt(|urls|))
    ensures OccursAt(p, instruction, UrlListAt(|urls|) + |Join(urls, ", ")| + |TaskLabel|)
  {
    var head := FetchIntro + Plural(|urls|) + ": ";
    var list := Join(urls, ", ");
    var p := head + list + TaskLabel + instruction + FetchOutro;
    FetchLayout(head, list, instruction);
    PluralMarker(|urls|);
    PrefixOccurs(p, head, "s", |FetchIntro|);
    p
  }

  /** The fetch prompt's opening says "URLs" exactly when there is more than one URL. */
  lemma PluralMarker(count: nat)
    ensures StartsWith(FetchIntro + Plural(count) + ": ", FetchIntro)
    ensures OccursAt(FetchIntro + Plural(count) + ": ", "s", |FetchIntro|) <==> count > 1
  {
    var rest := Plural(count) + ": ";
    assert FetchIntro + Plural(count) + ": " == FetchIntro + rest;
    ConcatOccurs(FetchIntro, rest);
    OccursShift(FetchIntro, rest, "s", 0);
    if count > 1 {
      assert rest[0..1] == "s";
    } else {
      assert rest[0] == ':';
    }
  }

  /** Where each part of a fetch prompt sits. */
  lemma FetchLayout(head: string, list: string, instruction: string)
    ensures StartsWith(head + list + TaskLabel + instruction + FetchOutro, head)
    ensures OccursAt(head + list + TaskLabel + instruction + FetchOutro, list, |head|)
    ensures OccursAt(head + list + TaskLabel + instruction + FetchOutro, instruction, |head| + |list| + |TaskLabel|)
  {
    var a := head + list;
    var b := a + TaskLabel;
    var c := b + instruction;
    ConcatOccurs(head, list);
    ConcatOccurs(a, TaskLabel);
    ConcatOccurs(b, instruction);
    ConcatOccurs(c, FetchOutro);
    OccursInPrefix(b, a, head, 0);
    OccursInPrefix(c, b, head, 0);
    OccursInPrefix(c + FetchOutro, c, head, 0);
    OccursInPrefix(b, a, list, |head|);
    OccursInPrefix(c, b, list, |head|);
    OccursInPrefix(c + FetchOutro, c, list, |head|);
    OccursInPrefix(c + FetchOutro, c, instruction, |b|);
  }

  /** `webFetchTool.execute`. */
  function WebFetch(args: FetchArgs): (r: Plan)
    ensures !Present(args.urls) ==> r == Reject(UrlsRequired)
    ensures Present(args.urls) && !GivenText(args.instruction) ==> r == Reject(InstructionRequired)
    ensures Present(args.urls) && GivenText(args.instruction) && FirstInvalid(AsList(args.urls.value)).Some? ==>
      r == Reject(InvalidUrlMessage(AsList(args.urls.value)[FirstInvalid(AsList(args.urls.value)).value]))
    ensures Present(args.urls) && GivenText(args.instruction) && FirstInvalid(AsList(args.urls.value)).None?
            && |AsList(args.urls.value)| > MaxUrls ==>
      r == Reject(TooManyUrls)
    ensures r.Invoke? <==>
      && Present(args.urls) && GivenText(args.instruction)
      && (forall k :: 0 <= k < |AsList(args.urls.value)| ==> ValidUrl(AsList(args.urls.value)[k]))
      && |AsList(args.urls.value)| <= MaxUrls
    ensures r.Reject? <==> !r.Invoke?
    ensures r.Invoke? ==>
      && r.call.model == args.model
      && !r.call.sandbox && !r.call.changeMode
      && r.finish == WrapText(ResponseSeparator)
    ensures r.Invoke? ==> r.call.prompt == FetchPrompt(AsList(args.urls.value), args.instruction.s)
  {
    if !Present(args.urls) then Reject(UrlsRequired)
    else
      match RequiredText(args.instruction)
      case None => Reject(InstructionRequired)
      case Some(instruction) =>
        var urls := AsList(args.urls.value);
        match FirstInvalid(urls)
        case Some(i) => Reject(InvalidUrlMessage(urls[i]))
        case None =>
          if |urls| > MaxUrls then Reject(TooManyUrls)
          else Invoke(Call(FetchPrompt(urls, instruction), args.model, false, false), WrapText(ResponseSeparator))
  }

  /** The rejection names the first URL, in list order, that lacks an accepted scheme. */
  lemma FetchNamesFirstInvalidUrl(args: FetchArgs, i: nat)
    requires Present(args.urls) && GivenText(args.instruction)
    requires i < |AsList(args.urls.value)| && !ValidUrl(AsList(args.urls.value)[i])
    requires forall k :: 0 <= k < i ==> ValidUrl(AsList(args.urls.value)[k])
    ensures WebFetch(args) == Reject(InvalidUrlMessage(AsList(args.urls.value)[i]))
  {
    var urls := AsList(args.urls.value);
    assert FirstInvalid(urls).Some?;
    var j := FirstInvalid(urls).value;
    assert j == i;
  }

  /**
    An invalid URL is reported even when the list is also too long: the
    rejection names the first invalid URL, not the limit.
   */
  lemma FetchSchemeCheckedBeforeCount(args: FetchArgs, i: nat)
    requires Present(args.urls) && GivenText(args.instruction)
    requires |AsList(args.urls.value)| > MaxUrls
    requires i < |AsList(args.urls.value)| && !ValidUrl(AsList(args.urls.value)[i])
    ensures FirstInvalid(AsList(args.urls.value)).Some?
    ensures WebFetch(args)
            == Reject(InvalidUrlMessage(AsList(args.urls.value)[FirstInvalid(AsList(args.urls.value)).value]))
    ensures WebFetch(args).message != TooManyUrls
  {
    var urls := AsList(args.urls.value);
    var j := FirstInvalid(urls).value;
    assert InvalidUrlMessage(urls[j])[0] == 'I';
    assert TooManyUrls[0] == 'M';
  }

  /**
    With every URL valid, the request passes exactly when it has at most
    twenty URLs; twenty pass and twenty-one are refused with the limit message.
   */
  lemma FetchLimitIsTwenty(args: FetchArgs)
    requires Present(args.urls) && GivenText(args.instruction)
    requires forall k :: 0 <= k < |AsList(args.urls.value)| ==> ValidUrl(AsList(args.urls.value)[k])
    ensures WebFetch(args).Invoke? <==> |AsList(args.urls.value)| <= 20
    ensures |AsList(args.urls.value)| == 20 ==> WebFetch(args).Invoke?
    ensures |AsList(args.urls.value)| == 21 ==> WebFetch(args) == Reject(TooManyUrls)
  {
  }

  /** A single URL string is a one-URL request: the prompt says "URL" and names it. */
  lemma FetchSingleUrl(args: FetchArgs, url: string)
    requires args.urls == Some(Single(url)) && ValidUrl(url) && GivenText(args.instruction)
    ensures WebFetch(args).Invoke?
    ensures !OccursAt(WebFetch(args).call.prompt, "s", |FetchIntro|)
    ensures OccursAt(WebFetch(args).call.prompt, url, UrlListAt(1))
  {
    assert AsList(Single(url)) == [url];
    assert Join([url], ", ") == url;
  }

  /** An empty array passes the `!urls` test and yields a singular prompt with no URLs. */
  lemma FetchAcceptsEmptyArray(args: FetchArgs)
    requires args.urls == Some(List([])) && GivenText(args.instruction)
    ensures WebFetch(args).Invoke?
    ensures !OccursAt(WebFetch(args).call.prompt, "s", |FetchIntro|)
  {
  }

  /** An accepted fetch replies with the header, a blank line and the output. */
  lemma FetchReply(args: FetchArgs, exec: Call -> ExecResult)
    requires Present(args.urls) && GivenText(args.instruction)
    requires forall k :: 0 <= k < |AsList(args.urls.value)| ==> ValidUrl(AsList(args.urls.value)[k])
    requires |AsList(args.urls.value)| <= MaxUrls
    ensures exec(WebFetch(args).call).Output? ==>
      Respond(WebFetch(args), exec) == Text(GeminiResponse + "\n\n" + exec(WebFetch(args).call).text)
    ensures exec(WebFetch(args).call).Threw? ==> Respond(WebFetch(args), exec) == Thrown(exec(WebFetch(args).call).error)
  {
  }

}

=== FILE: wrappers.dfy ===
/** Optional values: JavaScript `undefined` versus a present value. */
module Wrappers {

  datatype Option<+T> = None | Some(value: T)

}
